=== FILE: README.md ===
# Touch pad to keyboard wrapper — a Dafny model

`wrapper.js` hosts a keyboard-driven game in an iframe and drives it from a
touch screen. A circular on-screen pad sets a target point. Each animation
frame the knob eases toward that target, and an 8-way threshold gate turns
the knob position into held arrow keys. A START button holds Space. Every
change of the held set `down` is sent once to the frame's document and once
to its window as a synthetic `keydown` / `keyup`. A placement mode, used to
arrange the controls, freezes all key injection. It ends only through SET,
once both controls have been confirmed with their Done buttons (or with
Defaults). RESET restores START and releases the held keys.

This project models that core as pure transitions over an immutable state
record. Each transition returns the next state and, where keys can move, the
log of dispatched events.

- `keys.dfy` (`KeyInjection`) covers `keyMap`, `keyDown`, `keyUp` and the
  release loop of RESET. It also defines `Accounts`, the bookkeeping that
  relates a log of events to a change of `down`.
- `pad.dfy` (`PadJoystick`) covers the real-valued pad arithmetic: the
  pointer offset, the clamped target, the smoothing step with factor 0.22,
  the knob normalisation and the gate with threshold 0.28.
- `wrapper.dfy` (`Wrapper`) holds the state and every handler: the pad
  pointer session, `tick`, START, placement with its editors, Done, Defaults
  and SET, the drag clamps, and RESET.
- `traces.dfy` (`Traces`) turns each browser event into an input, runs
  inputs in sequence, and proves properties of whole runs.
- `options.dfy` (`Options`) provides `Option`.

Delivery to the frame can fail, for example when the game is on another
origin. The model takes this as the parameter `reachable`, and a run gives
each input its own `reachable`, so delivery may fail on some steps and
succeed on others. In the source `down` changes before the guarded delivery,
and the model keeps that order: `Traces.RunIgnoresDelivery` shows the state
does not depend on delivery. The exactly-once pairing of keydowns and keyups
needs delivery at every step; `Traces.MixedDeliveryUnpairsKeyup` shows a lone
keyup otherwise.

## Model

| member | source | states |
|---|---|---|
| KeyInjection.KeyMap | wrapper.js:121-127 | the table is defined for exactly ArrowUp, ArrowDown, ArrowLeft, ArrowRight and Space; each entry's `code` is its name, and `keyCode` equals `which` |
| KeyInjection.KeyDown | wrapper.js:135-144 | outside placement, a known name ends up in `down`; events are sent only on the unheld-to-held edge, as one keydown to the document and one to the window; unknown names and calls during placement change nothing; the log accounts for the change |
| KeyInjection.KeyUp | wrapper.js:145-153 | outside placement, a known name leaves `down`; a keyup pair is sent only if it was held; unheld or unknown names, and calls during placement, are no-ops; the log accounts for the change |
| KeyInjection.KeyDownIdempotent | wrapper.js:137-138 | a repeated keyDown of the same name changes nothing and sends nothing |
| KeyInjection.KeyUpIdempotent | wrapper.js:147-148 | a repeated keyUp of the same name changes nothing and sends nothing |
| KeyInjection.PressReleaseRoundTrip | wrapper.js:135-153 | keyDown then keyUp of an unheld known key restores `down` and sends keydown (document, window) then keyup (document, window) |
| KeyInjection.Sync | wrapper.js:223-226 | one `L ? keyDown : keyUp` line: outside placement the key is held afterwards exactly when the test is true; no other name changes; nothing happens during placement; events are sent exactly when a known key's state flips and the frame is reachable, all of this key, keydowns when the test is true and keyups otherwise; a key already in the tested state sends nothing |
| KeyInjection.KeyUpEach | wrapper.js:323 | the release loop: outside placement every listed known name leaves `down`; the log contains only keyups of listed names and accounts for the change; during placement nothing happens |
| PadJoystick.Clamp | wrapper.js:42 | the result is within the bounds, and equals the input when the input is already within them |
| PadJoystick.Offset | wrapper.js:187-189 | the pointer offset from the pad centre, in units of 92% of the half-extent: mapping it back gives the coordinate, and its sign says which side of the centre the pointer is on |
| PadJoystick.Magnitude | wrapper.js:190 | `hypot(dx, dy) \|\| 1` is always positive and equals the norm when the norm is non-zero |
| PadJoystick.TargetAxis | wrapper.js:191-194 | one target component is within [-1, 1] and has the same sign as the raw offset (zero when the offset is zero); when the magnitude is at least this offset, the component is at most `min(1, \|d\|)` in size, so each axis is limited by its own offset |
| PadJoystick.TargetFromOffset | wrapper.js:190-195 | the target computed from a normalised offset is in [-1, 1] on each axis, each component with the sign of its raw offset and, when `hyp` bounds both offsets, no larger than `min(1, \|offset\|)` on its axis |
| PadJoystick.TargetFromEvent | wrapper.js:185-195 | `setTargetFromEvent` from client coordinates and the pad rectangle: the target is in [-1, 1] on each axis; each component is positive exactly when the pointer is right of (below) the pad centre and negative exactly when it is left of (above) it; when `hyp` bounds both offsets, no component is larger than the pointer's normalised distance from the centre on that axis |
| PadJoystick.Smooth | wrapper.js:214-215 | one smoothing step shrinks the distance to the target by the factor 0.78 and lands between the old value and the target |
| PadJoystick.SmoothInBox | wrapper.js:214-215 | smoothing keeps x, y in [-1, 1] when they and tx, ty start there |
| PadJoystick.SmoothInDisc | wrapper.js:214-215 | smoothing keeps the knob in the unit disc when knob and target start in it |
| PadJoystick.Knob | wrapper.js:218 | when the given magnitude exceeds 1 the knob is the point divided by it, otherwise the point itself; either way each component keeps its sign and never moves away from the centre |
| PadJoystick.KnobOnlyReleases | wrapper.js:218-222 | normalising the knob can only turn arrows off: every arrow the gate turns on for the normalised knob it also turns on for the raw position |
| PadJoystick.Gate | wrapper.js:222 | the 8-way gate never turns on Left and Right together, nor Up and Down together |
| PadJoystick.GateDeadzone | wrapper.js:222 | inside the square [-0.28, 0.28]^2 no arrow is on |
| PadJoystick.NearCentreHoldsNoArrow | wrapper.js:185-222 | a pointer within 0.28 of the centre on both normalised axes sets a target in the dead zone, where the gate turns on no arrow |
| PadJoystick.GateEightWay | wrapper.js:221-222 | for every knob, each axis turns on one of its arrows exactly when the knob is past 0.28 on that axis, independently of the other axis; so any knob past both thresholds holds a diagonal |
| Wrapper.Init | wrapper.js:84-85 | the page-load state satisfies the invariant: nothing held, not placing, no pad session, START not used |
| Wrapper.CenterTarget | wrapper.js:196-203 | `centerTarget` puts target and knob at the centre at once and changes nothing else |
| Wrapper.PadPointerDown | wrapper.js:205 | outside placement, pointerdown always (re)starts tracking with the new pointer id, even over a live session, and sets a target in [-1, 1] pointing to the side of the pad centre the pointer is on and, when `hyp` bounds the offsets, no farther from the centre on each axis than the pointer; nothing else changes; during placement it is inert |
| Wrapper.PadPointerMove | wrapper.js:206 | a move during placement, without a session, or from another pointer leaves the state unchanged; otherwise only the target changes, within [-1, 1], pointing to the side of the pad centre the pointer is on and, when `hyp` bounds the offsets, no farther from the centre on each axis than the pointer |
| Wrapper.PadPointerEnd | wrapper.js:207-210 | a matching end sets tracking false and pid null and centres tx, ty, x, y; an ignored end changes nothing; no other field ever changes |
| Wrapper.Tick | wrapper.js:212-226 | the knob closes 22% of its gap to the target; outside placement each arrow is held afterwards exactly when the knob passes its 0.28 threshold on that side; Space and other names are untouched; during placement no key moves and nothing is sent; every event names an arrow whose state flipped, as a keydown exactly when it is now held, so a tick that changes no key sends nothing; the log accounts for the changes |
| Wrapper.SyncPair | wrapper.js:223-226 | two consecutive sync lines for distinct keys: each known key ends up held exactly when its test says so outside placement, no other name changes, and every event is an edge of one of the two keys |
| Wrapper.SyncArrows | wrapper.js:223-226 | the four sync lines: outside placement each arrow is held exactly when the gate says so; no other name changes; events are edges of arrows only; an unchanged `down` sends nothing; the log accounts for the change |
| Wrapper.StartPointerDown | wrapper.js:168-172 | START pointerdown activates the binding and, outside placement, holds Space; nothing but Space can change; the log is Space keydowns only, sent exactly when Space was not held, outside placement, with a reachable frame |
| Wrapper.StartPointerRelease | wrapper.js:159-175 | a release is inert unless the binding is active; otherwise Space is released, and outside placement the first release marks START used and hides it; once START is used its visibility is left alone; `startUsed` never returns to false here; the log is Space keyups only, sent exactly when an active release outside placement finds Space held and the frame reachable; only the binding flag, `down`, `startUsed` and START's visibility can change |
| Wrapper.UpdateSetButton | wrapper.js:103 | SET is enabled exactly when both Done flags are set, and nothing else changes |
| Wrapper.StartPlacement | wrapper.js:86-94 | placement begins with both Done flags false, SET disabled, editors closed and START hidden; entering placement does not release held keys (`down` is kept), and the pad session and target are kept |
| Wrapper.EndPlacement | wrapper.js:95-102 | placement ends with editors closed and START shown; the Done flags and held keys are kept |
| Wrapper.PadClick | wrapper.js:283 | a pad click opens the pad editor only during placement |
| Wrapper.StartClick | wrapper.js:284 | a START click opens the START editor only during placement |
| Wrapper.PadDone | wrapper.js:293 | the pad Done button closes its editor and marks the pad done; SET becomes enabled exactly when START is also done; no other field changes |
| Wrapper.StartDone | wrapper.js:294 | the START Done button closes its editor and marks START done; SET becomes enabled exactly when the pad is also done; no other field changes |
| Wrapper.PlaceDefaults | wrapper.js:297-301 | Defaults marks both controls done and enables SET |
| Wrapper.PlaceSet | wrapper.js:304-315 | SET does nothing outside placement; during placement it accepts an open editor of an unfinished control as done, then ends placement exactly when both controls are done, and otherwise stays in placement; ending placement shows START and closes both editors; staying leaves START's visibility as it was and keeps open only the editors of controls already done; keys, session, target and knob never change |
| Wrapper.DragTo | wrapper.js:233-251 | a drag exists only if it began during placement; the new offset stays within ±20vw/±12vh for the pad and ±30vw/±15vh for START, follows the pointer exactly while inside those limits, and is pinned to the limit the pointer has passed |
| Wrapper.Reset | wrapper.js:321-327 | RESET shows START and clears `startUsed`; outside placement it empties `down` using keyups only, with a log that accounts for the change; during placement it releases nothing; target and knob are centred; every other field, including the pad session, placement, the Done flags and the START binding, is kept |
| Traces.Step | wrapper.js:159-327 | each browser listener runs its handler; only a frame, the START press and release, and RESET can dispatch keys, every other listener sends nothing and leaves `down` alone, and an unreachable frame receives nothing |
| Traces.StepPreservesInv | wrapper.js:121-153 | every handler keeps the invariant: `down` is within `keyMap` and never holds opposite arrows, tracking matches pid being non-null, SET is enabled exactly when both are done, editors are open only while placing, target and knob stay in [-1, 1] |
| Traces.TickPreservesInv | wrapper.js:212-226 | a frame keeps the invariant: the smoothed knob stays in [-1, 1] on each axis and the gate never leaves opposite arrows held |
| Traces.RunPreservesInv | wrapper.js:121-153 | any sequence of handlers keeps the invariant |
| Traces.ReachableInv | wrapper.js:121-128 | every state reachable from page load satisfies the invariant; in particular `down` is a subset of the five key names |
| Traces.StepAccounts | wrapper.js:135-153 | with a reachable frame, each handler's log accounts for its change of `down` |
| Traces.RunAccounts | wrapper.js:135-153 | with the frame reachable at every step, a whole run's log accounts for the change of `down` from the first state to the last |
| Traces.ExactlyOnceEdges | wrapper.js:135-153 | from page load, with the frame reachable at every step, for every key and for each of document and window, keydowns minus keyups is 1 if the key is held and 0 otherwise |
| Traces.MixedDeliveryUnpairsKeyup | wrapper.js:135-153 | the pairing needs delivery at every step: START pressed while the frame is unreachable and released once it is reachable leaves nothing held and sends one Space keyup and no keydown |
| Traces.PlacingStepIsSilent | wrapper.js:136-146 | during placement no input changes `down` or sends anything, and only SET can end placement |
| Traces.PlacementFreezesKeys | wrapper.js:136-146 | a run that starts in placement and has no SET stays in placement, keeps `down` and sends nothing |
| Traces.StepIgnoresDelivery | wrapper.js:137-143 | the next state is the same whether or not delivery succeeds |
| Traces.TickIgnoresDelivery | wrapper.js:137-152 | a frame reaches the same state whether or not delivery succeeds |
| Traces.RunIgnoresDelivery | wrapper.js:137-152 | two runs of the same inputs reach the same state whatever the delivery at each step; a run in which the frame is never reachable sends nothing |
| Traces.StartUsedSticky | wrapper.js:156-165 | once START is used it stays used under every input except RESET |
| Traces.EnabledSetEndsPlacement | wrapper.js:303-315 | in a reachable state, an enabled SET during placement means both controls are done, so SET goes straight to `endPlacement` |
| Traces.EndThenTickReleasesArrows | wrapper.js:207 | after a matching pointer end, the next tick releases every arrow, because `centerTarget` snaps the knob to the centre |
| Traces.StaleSessionOutlivesPlacement | wrapper.js:207 | a pad session live when placement starts survives an end during placement, Defaults and SET with its pointer id, target and knob; a session held hard left makes the next tick after SET hold ArrowLeft |
| Traces.StartReappearsAfterPlacement | wrapper.js:95-165 | once START has been used and hidden, placement followed by Defaults and SET shows it again with `startUsed` still set, and a later press and release leave it shown |
| Traces.ResetReleasesEachHeldKeyOnce | wrapper.js:321-323 | RESET outside placement, from a reachable state with a reachable frame, empties `down` and sends exactly one keyup to each target for every previously held key and no keydown |

## Behaviour worth knowing

- the smoothing factor is the constant 0.22;
- the gate is a stateless 8-way test at 0.28 (`PadJoystick.Gate`,
  `PadJoystick.GateEightWay`);
- `startPlacement` keeps `down` (`Wrapper.StartPlacement`), and placement
  then freezes it (`Traces.PlacementFreezesKeys`);
- `endPlacement` always shows START, but a press hides it only before its
  first use. Once START has been used, placement and SET bring it back for
  good until RESET, although the press announces that only RESET restores
  it (`Traces.StartReappearsAfterPlacement`);
- `startPlacement` does not end a live pad session, and the `end` handler
  ignores every end during placement, so the session and its target are
  still live after SET (`Traces.StaleSessionOutlivesPlacement`);
- a pointer end snaps target and knob to the centre
  (`Traces.EndThenTickReleasesArrows`);
- a new pad pointerdown replaces a live session instead of being refused
  (`Wrapper.PadPointerDown`).

The source's `end` handler tests `e.pointerId && e.pointerId !== pid`. A
pointer id of 0 is falsy in JavaScript, so an end event with id 0 closes the
session whatever its owner. `Wrapper.EndIgnored` models this as written.

The SET handler's auto-accept branch runs only while SET is disabled.
Browsers do not deliver clicks to a disabled button, and
`Traces.EnabledSetEndsPlacement` shows that an enabled SET always has both
controls done. The model still runs the handler on every SET input, so the
branch remains reachable in the model.

## Left out

- Element lookups, the iframe URL, fullscreen and orientation gating, the landscape lock and the device-size tuning (wrapper.js:2-81): browser I/O with no decision logic.
- `KeyboardEvent` construction, the `keyCode`/`which` property overrides (wrapper.js:129-134) and `navigator.vibrate`: a delivery is one log record per target.
- `KeyInjection.KeyMap` is exactly the five-entry table (wrapper.js:121-127). In JavaScript a plain-object lookup of an inherited name such as `toString` would also be truthy. The source only ever passes the five names, so this is not modelled.
- Frame scheduling with `requestAnimationFrame` (wrapper.js:228-230): `Wrapper.Tick` is one frame.
- `Math.hypot`: every magnitude is a non-negative real argument. Nothing forces it to equal the Euclidean norm. The per-axis size bounds of the target are stated under the hypothesis that it is at least each offset's absolute value, which the Euclidean norm satisfies.
- PadJoystick.Offset: requires a pad of positive size. A zero-size rectangle gives NaN in the source, and floating-point rounding and NaN are not modelled.
- PadJoystick.Knob: that the division by a magnitude above 1 never happens on reachable states is not proved. It needs the unit-disc bound on the target, which needs the Euclidean norm of `Math.hypot`. `Wrapper.Tick` therefore gates on `Knob` of whatever magnitude it is given.
- Traces.StepPreservesInv: the invariant bounds target and knob per axis to [-1, 1], not to the unit disc, for the reason above. `PadJoystick.SmoothInDisc` proves the disc step for smoothing alone.
- Knob pixel placement in `moveKnob`, CSS custom properties, the editor sliders and their `parseFloat` fallbacks (wrapper.js:270-290), toasts, `focusGame`, the iframe reload on RESET, scroll prevention and the same-origin hint: presentation only.
- Wrapper.DragTo: only the clamp arithmetic and the placement guard of `beginDrag`, which is checked once at `pointerdown`. Pointer capture, the pointer-id filter of the move listener, listener bookkeeping and the stored CSS position are not modelled.
- One browser event often reaches several listeners (a window `pointerup` runs both the pad's `end` and the START release). The model has one input per listener, and a browser event is the sequence of inputs for the listeners it reaches.
- The initial HTML state (editors hidden, SET disabled) is assumed in `Wrapper.Init`; wrapper.js does not set it.

=== FILE: keys.dfy ===
/** Synthetic key injection: the `keyMap` table, the set `down` of held key
    names and the edge-triggered `keyDown` / `keyUp` pair of wrapper.js.
    A delivery is abstracted as appending event records to a log; whether
    the embedded frame can be reached at all is the parameter `reachable`. */
module KeyInjection {
  import opened Options

  /** What the table attaches to a synthetic event. */
  datatype KeyInfo = KeyInfo(key: string, code: string, keyCode: int, which: int)

  /** A keydown or a keyup. */
  datatype Kind = Press | Release

  /** Each transition is dispatched to the frame's document, then to its window. */
  datatype Target = FrameDocument | FrameWindow

  /** One dispatched synthetic keyboard event. */
  datatype KeyEvent = KeyEvent(kind: Kind, name: string, target: Target)

  /** The held set after a call, with the events the call dispatched. */
  datatype KeyStep = KeyStep(down: set<string>, events: seq<KeyEvent>)

  /** The names `keyMap` knows. */
  const KeyNames: set<string> := {"ArrowUp", "ArrowDown", "ArrowLeft", "ArrowRight", "Space"}

  /** The `keyMap` table: defined exactly on the five names, its `code` is
      the name itself and the legacy `keyCode` and `which` agree. */
  function KeyMap(name: string): (r: Option<KeyInfo>)
    ensures r.Some? <==> name in KeyNames
    ensures r.Some? ==> r.value.code == name && r.value.keyCode == r.value.which
  {
    if name == "ArrowUp" then Some(KeyInfo("ArrowUp", "ArrowUp", 38, 38))
    else if name == "ArrowDown" then Some(KeyInfo("ArrowDown", "ArrowDown", 40, 40))
    else if name == "ArrowLeft" then Some(KeyInfo("ArrowLeft", "ArrowLeft", 37, 37))
    else if name == "ArrowRight" then Some(KeyInfo("ArrowRight", "ArrowRight", 39, 39))
    else if name == "Space" then Some(KeyInfo(" ", "Space", 32, 32))
    else None
  }

  /** The two dispatches of one transition, document first; nothing at all
      when the frame cannot be reached (the `try` swallows the failure). */
  function Deliver(kind: Kind, name: string, reachable: bool): seq<KeyEvent>
  {
    if reachable then [KeyEvent(kind, name, FrameDocument), KeyEvent(kind, name, FrameWindow)]
    else []
  }

  /** How many times exactly this event occurs in the log. */
  function Count(es: seq<KeyEvent>, kind: Kind, name: string, t: Target): nat
  {
    if es == [] then 0
    else (if es[0] == KeyEvent(kind, name, t) then 1 else 0) + Count(es[1..], kind, name, t)
  }

  function Held(down: set<string>, name: string): nat
  {
    if name in down then 1 else 0
  }

  /** The log `es` accounts for the change of the held set from `before` to
      `after`: for every name and target, the presses it carries plus the
      press pending before equal its releases plus the press pending after. */
  ghost predicate Accounts(es: seq<KeyEvent>, before: set<string>, after: set<string>)
  {
    forall name: string, t: Target ::
      Count(es, Press, name, t) + Held(before, name) == Count(es, Release, name, t) + Held(after, name)
  }

  lemma {:induction false} CountAppend(a: seq<KeyEvent>, b: seq<KeyEvent>, kind: Kind, name: string, t: Target)
    ensures Count(a + b, kind, name, t) == Count(a, kind, name, t) + Count(b, kind, name, t)
  {
    if a == [] {
      assert a + b == b;
    } else {
      assert (a + b)[1..] == a[1..] + b;
      CountAppend(a[1..], b, kind, name, t);
    }
  }

  /** A log with no event of `kind` counts none of them. */
  lemma {:induction false} CountAbsent(es: seq<KeyEvent>, kind: Kind, name: string, t: Target)
    requires forall e | e in es :: e.kind != kind
    ensures Count(es, kind, name, t) == 0
  {
    if es != [] {
      assert es[0] in es;
      forall e | e in es[1..] ensures e.kind != kind {
        assert e in es;
      }
      CountAbsent(es[1..], kind, name, t);
    }
  }

  /** An empty log accounts for no change. */
  lemma AccountsEmpty(down: set<string>)
    ensures Accounts([], down, down)
  {
  }

  /** Logs chain: if `e1` accounts for `d0` to `d1` and `e2` for `d1` to
      `d2`, then `e1 + e2` accounts for `d0` to `d2`. */
  lemma AccountsChain(e1: seq<KeyEvent>, e2: seq<KeyEvent>, d0: set<string>, d1: set<string>, d2: set<string>)
    ensures Accounts(e1, d0, d1) && Accounts(e2, d1, d2) ==> Accounts(e1 + e2, d0, d2)
  {
    if Accounts(e1, d0, d1) && Accounts(e2, d1, d2) {
      forall name: string, t: Target
        ensures Count(e1 + e2, Press, name, t) + Held(d0, name) == Count(e1 + e2, Release, name, t) + Held(d2, name)
      {
        CountAppend(e1, e2, Press, name, t);
        CountAppend(e1, e2, Release, name, t);
      }
    }
  }

  /** The two dispatches of one delivered transition account for exactly
      that one key changing state. */
  lemma DeliverAccounts(kind: Kind, name: string, before: set<string>, after: set<string>)
    requires kind == Press ==> name !in before && after == before + {name}
    requires kind == Release ==> name in before && after == before - {name}
    ensures Accounts(Deliver(kind, name, true), before, after)
  {
    var es := Deliver(kind, name, true);
    assert es == [KeyEvent(kind, name, FrameDocument), KeyEvent(kind, name, FrameWindow)];
    forall n: string, t: Target
      ensures Count(es, Press, n, t) + Held(before, n) == Count(es, Release, n, t) + Held(after, n)
    {
      assert es[1..] == [es[1]];
      assert es[1..][1..] == [];
      forall k: Kind
        ensures Count(es, k, n, t) == (if es[0] == KeyEvent(k, n, t) then 1 else 0)
                                      + (if es[1] == KeyEvent(k, n, t) then 1 else 0)
      {
        assert Count(es[1..][1..], k, n, t) == 0;
      }
      if n == name {
        assert Count(es, kind, n, t) == 1 by {
          if t == FrameDocument { assert es[0] == KeyEvent(kind, n, t); } else { assert es[1] == KeyEvent(kind, n, t); }
        }
        assert kind == Press ==> Held(before, n) == 0 && Held(after, n) == 1;
        assert kind == Release ==> Held(before, n) == 1 && Held(after, n) == 0;
      } else {
        assert Held(before, n) == Held(after, n);
      }
    }
  }

  /** `keyDown(name)` (wrapper.js:135-144): outside placement a known, unheld
      name joins `down` and one keydown goes to the document and one to the
      window; in every other case nothing changes and nothing is sent. The
      set changes whether or not delivery succeeds. */
  function KeyDown(placing: bool, down: set<string>, name: string, reachable: bool): (r: KeyStep)
    ensures r.down == if !placing && name in KeyNames then down + {name} else down
    ensures r.events != [] <==> reachable && !placing && name in KeyNames && name !in down
    ensures forall e | e in r.events :: e.kind == Press && e.name == name
    ensures reachable ==> Accounts(r.events, down, r.down)
  {
    if placing then KeyStep(down, [])
    else if KeyMap(name).None? || name in down then KeyStep(down, [])
    else
      var after := down + {name};
      if reachable then
        DeliverAccounts(Press, name, down, after);
        KeyStep(after, Deliver(Press, name, reachable))
      else KeyStep(after, [])
  }

  /** `keyUp(name)` (wrapper.js:145-153): outside placement a held name
      leaves `down` and one keyup goes to the document and one to the window;
      an unheld or unknown name, or any call during placement, is a no-op. */
  function KeyUp(placing: bool, down: set<string>, name: string, reachable: bool): (r: KeyStep)
    ensures r.down == if !placing && name in KeyNames then down - {name} else down
    ensures r.events != [] <==> reachable && !placing && name in KeyNames && name in down
    ensures forall e | e in r.events :: e.kind == Release && e.name == name
    ensures reachable ==> Accounts(r.events, down, r.down)
  {
    if placing then KeyStep(down, [])
    else if KeyMap(name).None? || name !in down then KeyStep(down, [])
    else
      var after := down - {name};
      if reachable then
        DeliverAccounts(Release, name, down, after);
        KeyStep(after, Deliver(Release, name, reachable))
      else KeyStep(after, [])
  }

  /** The tick's `L ? keyDown(..) : keyUp(..)` for one key: outside placement
      a known key ends up held exactly when `on`; no other name is touched.
      Events go out only on an edge: exactly when the key's state flips, and
      then they are keydowns if `on` and keyups otherwise, all of this key. */
  function Sync(placing: bool, down: set<string>, name: string, on: bool, reachable: bool): (r: KeyStep)
    ensures !placing && name in KeyNames ==> (name in r.down <==> on)
    ensures r.down - {name} == down - {name}
    ensures placing ==> r.down == down && r.events == []
    ensures !reachable ==> r.events == []
    ensures r.events != [] <==> reachable && !placing && name in KeyNames && (name in down) != on
    ensures (name in down <==> on) ==> r.events == []
    ensures forall e | e in r.events :: e.name == name && (e.kind == Press <==> on)
    ensures EdgeEvents(r.events, down, r.down)
    ensures reachable ==> Accounts(r.events, down, r.down)
  {
    if on then KeyDown(placing, down, name, reachable) else KeyUp(placing, down, name, reachable)
  }

  /** Every event of `es` is an edge from `before` to `after`: its key
      changed state, and it is a keydown exactly when the key ends up held. */
  predicate EdgeEvents(es: seq<KeyEvent>, before: set<string>, after: set<string>)
  {
    forall e | e in es :: (e.name in before) != (e.name in after) && (e.kind == Press <==> e.name in after)
  }

  lemma EdgeEventsAppend(e1: seq<KeyEvent>, e2: seq<KeyEvent>, before: set<string>, after: set<string>)
    requires EdgeEvents(e1, before, after) && EdgeEvents(e2, before, after)
    ensures EdgeEvents(e1 + e2, before, after)
  {
  }

  /** Two steps that each keep every name outside their own set keep every
      name outside the union. */
  lemma DiffCompose(d0: set<string>, d1: set<string>, d2: set<string>, a: set<string>, b: set<string>)
    requires d1 - a == d0 - a && d2 - b == d1 - b
    ensures d2 - (a + b) == d0 - (a + b)
  {
    forall n | n !in a + b
      ensures n in d2 <==> n in d0
    {
      assert n in d2 <==> n in d2 - b;
      assert n in d1 <==> n in d1 - a;
    }
  }

  /** An edge log stays an edge log against other sets that agree, on
      every key it names, with the ones it was measured against. */
  lemma EdgeEventsRebase(es: seq<KeyEvent>, names: set<string>, b1: set<string>, a1: set<string>, b2: set<string>, a2: set<string>)
    requires EdgeEvents(es, b1, a1)
    requires forall e | e in es :: e.name in names
    requires forall n | n in names :: (n in b1 <==> n in b2) && (n in a1 <==> n in a2)
    ensures EdgeEvents(es, b2, a2)
  {
  }

  /** Nothing flips between a set and itself, so an edge log between them
      is empty. */
  lemma EdgeEventsEmpty(es: seq<KeyEvent>, d: set<string>)
    ensures es != [] ==> !EdgeEvents(es, d, d)
  {
    if es != [] {
      assert es[0] in es;
    }
  }

  function Elems(names: seq<string>): set<string>
  {
    set n | n in names
  }

  /** The reset handler's release loop: `keyUp` for each name in turn.
      Outside placement every known name in the list leaves `down`; the log
      holds only keyups of listed names and accounts for the change. */
  function KeyUpEach(placing: bool, down: set<string>, names: seq<string>, reachable: bool): (r: KeyStep)
    ensures placing ==> r == KeyStep(down, [])
    ensures !placing ==> r.down == down - (Elems(names) * KeyNames)
    ensures !reachable ==> r.events == []
    ensures forall e | e in r.events :: e.kind == Release && e.name in names
    ensures reachable ==> Accounts(r.events, down, r.down)
    decreases |names|
  {
    if names == [] then
      AccountsEmpty(down);
      KeyStep(down, [])
    else
      var first := KeyUp(placing, down, names[0], reachable);
      var rest := KeyUpEach(placing, first.down, names[1..], reachable);
      assert Elems(names) == {names[0]} + Elems(names[1..]);
      AccountsChain(first.events, rest.events, down, first.down, rest.down);
      KeyStep(rest.down, first.events + rest.events)
  }

  /** A second `keyDown` of the same name changes nothing and sends nothing. */
  lemma KeyDownIdempotent(placing: bool, down: set<string>, name: string, reachable: bool)
    ensures var once := KeyDown(placing, down, name, reachable);
            KeyDown(placing, once.down, name, reachable) == KeyStep(once.down, [])
  {
  }

  /** A second `keyUp` of the same name changes nothing and sends nothing. */
  lemma KeyUpIdempotent(placing: bool, down: set<string>, name: string, reachable: bool)
    ensures var once := KeyUp(placing, down, name, reachable);
            KeyUp(placing, once.down, name, reachable) == KeyStep(once.down, [])
  {
  }

  /** A press followed by a release of an unheld known key restores `down`
      and sends exactly keydown, keydown, keyup, keyup in that order. */
  lemma PressReleaseRoundTrip(down: set<string>, name: string)
    requires name in KeyNames && name !in down
    ensures var p := KeyDown(false, down, name, true);
            var q := KeyUp(false, p.down, name, true);
            q.down == down
            && p.events + q.events == [KeyEvent(Press, name, FrameDocument), KeyEvent(Press, name, FrameWindow),
                                       KeyEvent(Release, name, FrameDocument), KeyEvent(Release, name, FrameWindow)]
  {
  }
}

=== FILE: options.dfy ===
/** The optional value used for the source's `null` pointer id and for
    lookups in the key table. */
module Options {

  datatype Option<+T> = None | Some(value: T)
}

=== FILE: pad.dfy ===
/** The circular pad's arithmetic over the reals: the pointer offset, the
    clamped target `(tx, ty)`, the per-tick exponential smoothing of the
    knob `(x, y)`, the knob's unit-circle normalisation and the 8-way
    threshold gate. `Math.hypot` has no counterpart here: wherever the
    source takes a magnitude, it is passed in as a non-negative real. */
module PadJoystick {

  /** The unit circle is 92% of the pad's half-extent. */
  const Outer: real := 0.92
  /** Key threshold of the gate. */
  const Threshold: real := 0.28
  /** Fraction of the remaining distance the knob covers per tick. */
  const Smoothing: real := 0.22

  type NonNegReal = r: real | r >= 0.0

  datatype Vec = Vec(x: real, y: real)

  /** One boolean per arrow, as computed by the tick. */
  datatype Arrows = Arrows(left: bool, right: bool, up: bool, down: bool)

  function Abs(v: real): real { if v < 0.0 then -v else v }

  function Min(a: real, b: real): real { if a <= b then a else b }

  function Max(a: real, b: real): real { if a >= b then a else b }

  /** `clamp(v, lo, hi)` as `Math.max(lo, Math.min(hi, v))`. */
  function Clamp(v: real, lo: real, hi: real): (r: real)
    requires lo <= hi
    ensures lo <= r <= hi
    ensures lo <= v <= hi ==> r == v
    ensures v < lo ==> r == lo
    ensures v > hi ==> r == hi
  {
    Max(lo, Min(hi, v))
  }

  predicate InBox(v: Vec)
  {
    -1.0 <= v.x <= 1.0 && -1.0 <= v.y <= 1.0
  }

  predicate InDisc(v: Vec)
  {
    v.x * v.x + v.y * v.y <= 1.0
  }

  /** The offset of a pointer coordinate from the pad's centre, in units of
      92% of the pad's half-extent: mapping it back gives the coordinate,
      the centre maps to 0, and the sign says which side of the centre. */
  function Offset(client: real, start: real, extent: real): (r: real)
    requires extent > 0.0
    ensures client == start + extent / 2.0 + r * (extent * 0.5 * Outer)
    ensures r > 0.0 <==> client > start + extent / 2.0
    ensures r < 0.0 <==> client < start + extent / 2.0
  {
    var unit := extent * 0.5 * Outer;
    var r := (client - (start + extent / 2.0)) / unit;
    assert r * unit == client - (start + extent / 2.0);
    SignOfQuotient(client - (start + extent / 2.0), unit);
    r
  }

  lemma SignOfQuotient(a: real, b: real)
    requires b > 0.0
    ensures a / b > 0.0 <==> a > 0.0
    ensures a / b < 0.0 <==> a < 0.0
  {
    var q := a / b;
    assert q * b == a;
    if q > 0.0 { assert q * b > 0.0; }
    if q < 0.0 { assert (-q) * b > 0.0; }
    if q == 0.0 { assert q * b == 0.0; }
  }

  /** `Math.hypot(dx, dy) || 1`: a zero magnitude is replaced by 1. */
  function Magnitude(hyp: NonNegReal): (m: real)
    ensures m > 0.0
    ensures hyp > 0.0 ==> m == hyp
  {
    if hyp == 0.0 then 1.0 else hyp
  }

  lemma ProductPositive(a: real, b: real)
    ensures a > 0.0 && b > 0.0 ==> a * b > 0.0
  {
  }

  /** A quotient by a divisor at least as large as the dividend is at most
      1 in magnitude. */
  lemma QuotientAtMostOne(d: real, m: real)
    requires m > 0.0 && m >= Abs(d)
    ensures Abs(d / m) <= 1.0
  {
    var q := d / m;
    assert q * m == d;
    var a := Abs(q);
    var am := a * m;
    assert am == Abs(d) by {
      if q < 0.0 { assert (-q) * m == -(q * m); }
    }
    var e := a - 1.0;
    var em := e * m;
    ProductPositive(e, m);
    assert em == am - m;
    assert e > 0.0 ==> em > 0.0;
    assert em <= 0.0;
  }

  /** Scaling by a factor of magnitude at most 1 never grows a
      non-negative bound. */
  lemma ScaleAtMost(q: real, c: real)
    requires Abs(q) <= 1.0 && c >= 0.0
    ensures Abs(q * c) <= c
  {
    var lo := (1.0 - q) * c;
    var hi := (1.0 + q) * c;
    assert lo >= 0.0;
    assert hi >= 0.0;
    assert lo == c - q * c;
    assert hi == c + q * c;
  }

  /** One axis of `setTargetFromEvent`: `(d / m) * min(1, |d|)`, clamped to
      `[-1, 1]`. The result is in range and has the sign of the raw offset;
      when the magnitude `m` is at least this axis's offset, as `hypot`
      is, the axis is limited to its own offset: `|r| <= min(1, |d|)`. */
  function TargetAxis(d: real, m: real): (r: real)
    requires m > 0.0
    ensures -1.0 <= r <= 1.0
    ensures r > 0.0 <==> d > 0.0
    ensures r < 0.0 <==> d < 0.0
    ensures m >= Abs(d) ==> Abs(r) <= Min(1.0, Abs(d))
  {
    var q := d / m;
    var c := Min(1.0, Abs(d));
    SignOfQuotient(d, m);
    assert d > 0.0 ==> q * c > 0.0;
    assert d < 0.0 ==> (-q) * c > 0.0;
    assert d == 0.0 ==> q * c == 0.0;
    if m >= Abs(d) then
      QuotientAtMostOne(d, m);
      ScaleAtMost(q, c);
      Clamp(q * c, -1.0, 1.0)
    else
      Clamp(q * c, -1.0, 1.0)
  }

  /** `setTargetFromEvent` on a normalised offset `(dx, dy)` whose magnitude
      is `hyp`: the target is in the box `[-1, 1]^2` and each component has
      the sign of (or is zero with) its raw offset. When `hyp` bounds both
      offsets, as `Math.hypot` does, each axis is limited to its own offset:
      a pointer close to the centre on an axis gives a small target there. */
  function TargetFromOffset(dx: real, dy: real, hyp: NonNegReal): (t: Vec)
    ensures InBox(t)
    ensures (t.x > 0.0 <==> dx > 0.0) && (t.x < 0.0 <==> dx < 0.0)
    ensures (t.y > 0.0 <==> dy > 0.0) && (t.y < 0.0 <==> dy < 0.0)
    ensures hyp >= Abs(dx) && hyp >= Abs(dy) ==>
              Abs(t.x) <= Min(1.0, Abs(dx)) && Abs(t.y) <= Min(1.0, Abs(dy))
  {
    var m := Magnitude(hyp);
    Vec(TargetAxis(dx, m), TargetAxis(dy, m))
  }

  /** The pad's bounding rectangle, `pad.getBoundingClientRect()`, of
      positive size. */
  datatype Rect = Rect(left: real, top: real, width: real, height: real)

  type PadRect = r: Rect | r.width > 0.0 && r.height > 0.0
    witness Rect(0.0, 0.0, 1.0, 1.0)

  /** `setTargetFromEvent`: the pointer's offset from the pad's centre is
      normalised by `Offset` on each axis, then turned into the target;
      `hyp` stands for `Math.hypot` of that offset. The target is in the
      box, and each component is positive exactly when the pointer is right
      of (below) the centre and negative exactly when it is left of (above)
      it. */
  function TargetFromEvent(clientX: real, clientY: real, rect: PadRect, hyp: NonNegReal): (t: Vec)
    ensures InBox(t)
    ensures (t.x > 0.0 <==> clientX > rect.left + rect.width / 2.0)
    ensures (t.x < 0.0 <==> clientX < rect.left + rect.width / 2.0)
    ensures (t.y > 0.0 <==> clientY > rect.top + rect.height / 2.0)
    ensures (t.y < 0.0 <==> clientY < rect.top + rect.height / 2.0)
    ensures var dx := Offset(clientX, rect.left, rect.width);
            var dy := Offset(clientY, rect.top, rect.height);
            hyp >= Abs(dx) && hyp >= Abs(dy) ==> Abs(t.x) <= Abs(dx) && Abs(t.y) <= Abs(dy)
  {
    TargetFromOffset(Offset(clientX, rect.left, rect.width), Offset(clientY, rect.top, rect.height), hyp)
  }

  /** One smoothing step `v += (target - v) * 0.22`: the distance to the
      target shrinks by the factor 0.78 and the result lies between the old
      value and the target. */
  function Smooth(v: real, target: real): (r: real)
    ensures r - target == (1.0 - Smoothing) * (v - target)
    ensures Min(v, target) <= r <= Max(v, target)
  {
    v + (target - v) * Smoothing
  }

  function SmoothVec(p: Vec, target: Vec): Vec
  {
    Vec(Smooth(p.x, target.x), Smooth(p.y, target.y))
  }

  /** Smoothing keeps the knob in the box `[-1, 1]^2`. */
  lemma SmoothInBox(p: Vec, target: Vec)
    requires InBox(p) && InBox(target)
    ensures InBox(SmoothVec(p, target))
  {
  }

  lemma SquareOfConvex(p: real, q: real)
    ensures var r := Smooth(p, q);
            r * r == (1.0 - Smoothing) * (p * p) + Smoothing * (q * q) - (1.0 - Smoothing) * Smoothing * ((p - q) * (p - q))
  {
  }

  /** Smoothing keeps the knob in the unit disc: a convex combination of
      two points of the disc stays in it. */
  lemma {:induction false} SmoothInDisc(p: Vec, target: Vec)
    requires InDisc(p) && InDisc(target)
    ensures InDisc(SmoothVec(p, target))
  {
    SquareOfConvex(p.x, target.x);
    SquareOfConvex(p.y, target.y);
    assert (p.x - target.x) * (p.x - target.x) >= 0.0;
    assert (p.y - target.y) * (p.y - target.y) >= 0.0;
  }

  /** Dividing by a factor above 1 keeps the sign and never grows the
      magnitude. */
  lemma ShrinkByDivision(a: real, h: real)
    requires h > 1.0
    ensures Abs(a / h) <= Abs(a)
    ensures a / h < 0.0 <==> a < 0.0
    ensures a / h > 0.0 <==> a > 0.0
  {
    var q := a / h;
    var e := h - 1.0;
    var m := q * e;
    assert a == q * h;
    assert a == q + m;
    if q < 0.0 {
      assert m < 0.0;
    } else if q > 0.0 {
      assert m > 0.0;
    } else {
      assert m == 0.0;
    }
  }

  /** The knob position of the tick: `m > 1 ? (x/m, y/m) : (x, y)`.
      Normalisation keeps each component's sign and only moves it towards
      the centre. */
  function Knob(p: Vec, hyp: NonNegReal): (k: Vec)
    ensures hyp > 1.0 ==> k.x * hyp == p.x && k.y * hyp == p.y
    ensures hyp <= 1.0 ==> k == p
    ensures Abs(k.x) <= Abs(p.x) && Abs(k.y) <= Abs(p.y)
    ensures (k.x < 0.0 <==> p.x < 0.0) && (k.x > 0.0 <==> p.x > 0.0)
    ensures (k.y < 0.0 <==> p.y < 0.0) && (k.y > 0.0 <==> p.y > 0.0)
  {
    if hyp > 1.0 then
      ShrinkByDivision(p.x, hyp);
      ShrinkByDivision(p.y, hyp);
      Vec(p.x / hyp, p.y / hyp)
    else p
  }

  /** The 8-way gate: `L = nx < -TH, R = nx > TH, U = ny < -TH, D = ny > TH`.
      Opposite arrows are never both on. */
  function Gate(k: Vec): (a: Arrows)
    ensures !(a.left && a.right) && !(a.up && a.down)
  {
    Arrows(k.x < -Threshold, k.x > Threshold, k.y < -Threshold, k.y > Threshold)
  }

  /** Inside the square `[-TH, TH]^2` no arrow is on. */
  lemma GateDeadzone(k: Vec)
    requires Abs(k.x) <= Threshold && Abs(k.y) <= Threshold
    ensures Gate(k) == Arrows(false, false, false, false)
  {
  }

  /** Every arrow of `a` is also on in `b`. */
  predicate ArrowsWithin(a: Arrows, b: Arrows)
  {
    (a.left ==> b.left) && (a.right ==> b.right) && (a.up ==> b.up) && (a.down ==> b.down)
  }

  /** Normalising the knob can only turn arrows off, never on: an arrow
      held for the normalised knob is held for the raw position too. */
  lemma KnobOnlyReleases(p: Vec, hyp: NonNegReal)
    ensures ArrowsWithin(Gate(Knob(p, hyp)), Gate(p))
  {
  }

  /** A pointer within the threshold of the centre on both axes sets a
      target inside the dead zone: parked there, the knob holds no arrow. */
  lemma NearCentreHoldsNoArrow(dx: real, dy: real, hyp: NonNegReal)
    requires hyp >= Abs(dx) && hyp >= Abs(dy)
    requires Abs(dx) <= Threshold && Abs(dy) <= Threshold
    ensures Gate(TargetFromOffset(dx, dy, hyp)) == Arrows(false, false, false, false)
  {
    var t := TargetFromOffset(dx, dy, hyp);
    GateDeadzone(t);
  }

  /** The gate is 8-way: each axis independently turns on one of its two
      arrows exactly when the knob is past the threshold on that axis, so a
      knob past both thresholds holds a diagonal. */
  lemma GateEightWay(k: Vec)
    ensures Gate(k).left || Gate(k).right <==> Abs(k.x) > Threshold
    ensures Gate(k).up || Gate(k).down <==> Abs(k.y) > Threshold
    ensures Abs(k.x) > Threshold && Abs(k.y) > Threshold ==>
              (Gate(k).left || Gate(k).right) && (Gate(k).up || Gate(k).down)
  {
  }
}

=== FILE: traces.dfy ===
/** Runs of the wrapper: every browser event the core listens to as an
    input, one step per input, and the properties that hold of whole runs —
    the invariant, the exactly-once pairing of keydowns and keyups, the
    freeze during placement, and independence of the state from delivery. */
module Traces {
  import opened Options
  import opened KeyInjection
  import opened PadJoystick
  import opened Wrapper

  /** The events the core reacts to. */
  datatype Input =
    | PadDown(e: PadPointer)             // pad pointerdown
    | PadMove(e: PadPointer)             // pad pointermove
    | PadEnd(pointerId: int)             // pad pointerup / pointercancel, window pointerup
    | Frame(hyp: NonNegReal)             // one animation frame (`tick`)
    | StartDown                          // START pointerdown
    | StartRelease                       // window pointerup / pointercancel, START pointerout
    | OpenPlacement                      // gear button, or the fullscreen gate's entry
    | PadTap                             // pad click
    | StartTap                           // START click
    | PadDoneTap                         // pad editor Done
    | StartDoneTap                       // START editor Done
    | DefaultsTap                        // Defaults
    | SetTap                             // SET
    | ResetTap                           // RESET

  /** The handler an input runs. `reachable` says whether the frame's
      document can be reached for delivery. Only a frame, the START press
      and release, and RESET dispatch keys; every other listener sends
      nothing and leaves `down` alone. */
  function Step(s: State, i: Input, reachable: bool): (r: Out)
    ensures !(i.Frame? || i.StartDown? || i.StartRelease? || i.ResetTap?) ==>
              r.events == [] && r.state.down == s.down
    ensures !reachable ==> r.events == []
  {
    match i
    case PadDown(e) => Out(PadPointerDown(s, e), [])
    case PadMove(e) => Out(PadPointerMove(s, e), [])
    case PadEnd(id) => Out(PadPointerEnd(s, id), [])
    case Frame(hyp) => Tick(s, hyp, reachable)
    case StartDown => StartPointerDown(s, reachable)
    case StartRelease => StartPointerRelease(s, reachable)
    case OpenPlacement => Out(StartPlacement(s), [])
    case PadTap => Out(PadClick(s), [])
    case StartTap => Out(StartClick(s), [])
    case PadDoneTap => Out(PadDone(s), [])
    case StartDoneTap => Out(StartDone(s), [])
    case DefaultsTap => Out(PlaceDefaults(s), [])
    case SetTap => Out(PlaceSet(s), [])
    case ResetTap => Reset(s, reachable)
  }

  /** An input together with whether the frame's document could be reached
      while it was handled; delivery may fail on some steps of a run and
      succeed on others. */
  datatype Arrival = Arrival(input: Input, reachable: bool)

  /** Every step of the run could reach the frame. */
  predicate AllDelivered(run: seq<Arrival>)
  {
    forall k | 0 <= k < |run| :: run[k].reachable
  }

  /** The arrivals in order; the log is the concatenation of the steps' logs. */
  function Run(s: State, run: seq<Arrival>): Out
    decreases |run|
  {
    if run == [] then Out(s, [])
    else
      var first := Step(s, run[0].input, run[0].reachable);
      var rest := Run(first.state, run[1..]);
      Out(rest.state, first.events + rest.events)
  }

  /** Every handler keeps the invariant: `down` within `keyMap` and never
      holding opposite arrows, the session flag matching the pointer id, SET
      enabled exactly when both controls are done, editors open only during
      placement, target and knob in `[-1, 1]`. */
  lemma StepPreservesInv(s: State, i: Input, reachable: bool)
    requires Inv(s)
    ensures Inv(Step(s, i, reachable).state)
  {
    match i
    case Frame(hyp) => TickPreservesInv(s, hyp, reachable);
    case _ =>
  }

  /** A frame keeps the invariant: the smoothed knob stays in the box and
      the gate never asks for opposite arrows. */
  lemma TickPreservesInv(s: State, hyp: NonNegReal, reachable: bool)
    requires Inv(s)
    ensures Inv(Tick(s, hyp, reachable).state)
  {
    SmoothInBox(Vec(s.x, s.y), Vec(s.tx, s.ty));
    var r := Tick(s, hyp, reachable).state;
    assert r.down <= KeyNames by {
      forall n | n in r.down ensures n in KeyNames {
        if n !in ArrowNames { assert n in s.down; }
      }
    }
  }

  lemma {:induction false} RunPreservesInv(s: State, run: seq<Arrival>)
    requires Inv(s)
    ensures Inv(Run(s, run).state)
    decreases |run|
  {
    if run != [] {
      StepPreservesInv(s, run[0].input, run[0].reachable);
      RunPreservesInv(Step(s, run[0].input, run[0].reachable).state, run[1..]);
    }
  }

  /** Every state reachable from page load satisfies the invariant; in
      particular `down` only ever holds names of `keyMap`. */
  lemma ReachableInv(run: seq<Arrival>)
    ensures Inv(Run(Init(), run).state)
    ensures Run(Init(), run).state.down <= KeyNames
  {
    RunPreservesInv(Init(), run);
  }

  /** One step's log accounts for its change of `down`. */
  lemma StepAccounts(s: State, i: Input)
    ensures var o := Step(s, i, true); Accounts(o.events, s.down, o.state.down)
  {
    match i
    case Frame(_) =>
    case StartDown =>
    case StartRelease =>
    case ResetTap =>
    case _ => AccountsEmpty(s.down);
  }

  lemma {:induction false} RunAccounts(s: State, run: seq<Arrival>)
    requires AllDelivered(run)
    ensures var o := Run(s, run); Accounts(o.events, s.down, o.state.down)
    decreases |run|
  {
    if run == [] {
      AccountsEmpty(s.down);
    } else {
      assert run[0].reachable;
      var first := Step(s, run[0].input, true);
      var rest := Run(first.state, run[1..]);
      StepAccounts(s, run[0].input);
      assert AllDelivered(run[1..]) by {
        forall k | 0 <= k < |run[1..]| ensures run[1..][k].reachable {
          assert run[1..][k] == run[k + 1];
        }
      }
      RunAccounts(first.state, run[1..]);
      AccountsChain(first.events, rest.events, s.down, first.state.down, rest.state.down);
    }
  }

  /** Exactly-once edges: after any run from page load in which the frame
      is reachable at every step, for every key and each of document and
      window, the keydowns sent exceed the keyups sent by exactly 1 if the
      key is held and by 0 otherwise — never a keyup without its keydown,
      never two pending. */
  lemma ExactlyOnceEdges(run: seq<Arrival>)
    requires AllDelivered(run)
    ensures var o := Run(Init(), run);
            forall name: string, t: Target ::
              Count(o.events, Press, name, t) == Count(o.events, Release, name, t) + Held(o.state.down, name)
  {
    RunAccounts(Init(), run);
  }

  /** Delivery at every step is needed for the pairing: `down` changes
      even when the keydown cannot be delivered, so a later keyup that is
      delivered has no keydown to pair with. Pressing START while the
      frame is unreachable and releasing it once it is reachable sends a
      lone Space keyup. */
  lemma MixedDeliveryUnpairsKeyup()
    ensures var o := Run(Init(), [Arrival(StartDown, false), Arrival(StartRelease, true)]);
            && o.state.down == {}
            && Count(o.events, Release, "Space", FrameDocument) == 1
            && Count(o.events, Press, "Space", FrameDocument) == 0
  {
    var run := [Arrival(StartDown, false), Arrival(StartRelease, true)];
    var s1 := StartPointerDown(Init(), false).state;
    assert "Space" in s1.down && s1.startActive && !s1.placing;
    var o2 := StartPointerRelease(s1, true);
    assert o2.events == Deliver(Release, "Space", true);
    assert run[1..] == [Arrival(StartRelease, true)];
    assert run[1..][1..] == [];
    assert Run(Init(), run).events == o2.events;
  }

  /** During placement no input except SET changes `down` or sends
      anything, and SET changes `down` neither: so entering placement
      freezes the held keys rather than releasing them. */
  lemma PlacingStepIsSilent(s: State, i: Input, reachable: bool)
    requires s.placing
    ensures Step(s, i, reachable).state.down == s.down
    ensures Step(s, i, reachable).events == []
    ensures !i.SetTap? ==> Step(s, i, reachable).state.placing
  {
    match i
    case Frame(hyp) =>
    case StartDown =>
    case StartRelease =>
    case ResetTap =>
    case SetTap =>
    case _ =>
  }

  /** A run that stays in placement leaves `down` as it was and sends nothing. */
  lemma {:induction false} PlacementFreezesKeys(s: State, run: seq<Arrival>)
    requires s.placing
    requires forall k | 0 <= k < |run| :: !run[k].input.SetTap?
    ensures Run(s, run).state.down == s.down
    ensures Run(s, run).state.placing
    ensures Run(s, run).events == []
    decreases |run|
  {
    if run != [] {
      assert !run[0].input.SetTap?;
      var first := Step(s, run[0].input, run[0].reachable);
      PlacingStepIsSilent(s, run[0].input, run[0].reachable);
      forall k | 0 <= k < |run[1..]| ensures !run[1..][k].input.SetTap? {
        assert run[1..][k] == run[k + 1];
      }
      PlacementFreezesKeys(first.state, run[1..]);
    }
  }

  /** `down` is updated before the delivery `try`: whether delivery
      succeeds has no effect on the state, for a step and for a run. */
  lemma StepIgnoresDelivery(s: State, i: Input)
    ensures Step(s, i, true).state == Step(s, i, false).state
  {
    match i
    case Frame(hyp) => TickIgnoresDelivery(s, hyp);
    case StartDown =>
    case StartRelease =>
    case ResetTap =>
    case _ =>
  }

  /** A frame reaches the same state whether or not delivery succeeds. */
  lemma TickIgnoresDelivery(s: State, hyp: NonNegReal)
    ensures Tick(s, hyp, true).state == Tick(s, hyp, false).state
  {
  }

  /** Two runs of the same inputs reach the same state whatever the
      delivery at each step, and a run in which the frame is never
      reachable sends nothing. */
  lemma {:induction false} RunIgnoresDelivery(s: State, a: seq<Arrival>, b: seq<Arrival>)
    requires |a| == |b|
    requires forall k | 0 <= k < |a| :: a[k].input == b[k].input
    ensures Run(s, a).state == Run(s, b).state
    ensures (forall k | 0 <= k < |a| :: !a[k].reachable) ==> Run(s, a).events == []
    decreases |a|
  {
    if a != [] {
      assert a[0].input == b[0].input;
      var i := a[0].input;
      StepIgnoresDelivery(s, i);
      assert Step(s, i, a[0].reachable).state == Step(s, i, b[0].reachable).state by {
        StepIgnoresDelivery(s, i);
      }
      assert Step(s, i, false).events == [];
      forall k | 0 <= k < |a[1..]| ensures a[1..][k].input == b[1..][k].input {
        assert a[1..][k] == a[k + 1] && b[1..][k] == b[k + 1];
      }
      if forall k | 0 <= k < |a| :: !a[k].reachable {
        forall k | 0 <= k < |a[1..]| ensures !a[1..][k].reachable {
          assert a[1..][k] == a[k + 1];
        }
      }
      RunIgnoresDelivery(Step(s, i, a[0].reachable).state, a[1..], b[1..]);
    }
  }

  /** Once START has been used it stays used until RESET. */
  lemma StartUsedSticky(s: State, i: Input, reachable: bool)
    requires s.startUsed && !i.ResetTap?
    ensures Step(s, i, reachable).state.startUsed
  {
    match i
    case Frame(hyp) =>
    case StartDown =>
    case StartRelease =>
    case SetTap =>
    case _ =>
  }

  /** SET's auto-accept only matters when SET is disabled: in a reachable
      state where SET is enabled during placement, both controls are done
      and a SET click goes straight to `endPlacement`. */
  lemma EnabledSetEndsPlacement(s: State)
    requires Inv(s) && s.placing && s.setEnabled
    ensures PlaceSet(s) == EndPlacement(s)
    ensures !PlaceSet(s).placing
  {
  }

  /** After a matching pointer end the knob is centred at once, so the next
      tick outside placement releases every arrow (the source snaps back
      instead of easing). */
  lemma EndThenTickReleasesArrows(s: State, pointerId: int, hyp: NonNegReal, reachable: bool)
    requires !EndIgnored(s, pointerId)
    ensures var r := Tick(PadPointerEnd(s, pointerId), hyp, reachable).state;
            r.down * ArrowNames == {}
  {
    var e := PadPointerEnd(s, pointerId);
    var r := Tick(e, hyp, reachable).state;
    assert r.x == 0.0 && r.y == 0.0;
    var k := Knob(Vec(r.x, r.y), hyp);
    assert k.x == 0.0 && k.y == 0.0;
  }

  /** A pad session that is live when placement starts outlives it: the
      end handler ignores every end during placement, so a finger lifted
      then leaves `tracking`, `pid` and the target as they were. After
      Defaults and SET the old target drives the knob again; a target and
      knob that were held hard left make the next tick hold ArrowLeft,
      with no pointer on the pad. */
  lemma StaleSessionOutlivesPlacement(s: State, pointerId: int, reachable: bool)
    requires !s.placing && s.tracking
    ensures var p := PlaceSet(PlaceDefaults(PadPointerEnd(StartPlacement(s), pointerId)));
            && !p.placing && p.tracking && p.pid == s.pid
            && p.tx == s.tx && p.ty == s.ty && p.x == s.x && p.y == s.y
    ensures var p := PlaceSet(PlaceDefaults(PadPointerEnd(StartPlacement(s), pointerId)));
            s.tx == -1.0 && s.x == -1.0 && s.ty == 0.0 && s.y == 0.0 ==>
              "ArrowLeft" in Tick(p, 1.0, reachable).state.down
  {
  }

  /** Once START has been used and hidden, placement brings it back for
      good: `endPlacement` always shows START, while a press only hides it
      before its first use. So after placement and SET, START is shown and
      a later press and release leave it shown, until RESET. */
  lemma StartReappearsAfterPlacement(s: State, reachable: bool)
    requires Inv(s) && !s.placing && s.startUsed && !s.startShown && !s.startActive
    ensures var p := PlaceSet(PlaceDefaults(StartPlacement(s)));
            && !p.placing && p.startShown && p.startUsed
            && StartPointerRelease(StartPointerDown(p, reachable).state, reachable).state.startShown
  {
  }

  /** RESET outside placement, from a reachable state with a reachable
      frame: nothing stays held, and for each key exactly one keyup goes to
      the document and one to the window if it was held, none otherwise; no
      keydown is sent. */
  lemma ResetReleasesEachHeldKeyOnce(s: State)
    requires Inv(s) && !s.placing
    ensures var o := Reset(s, true);
            && o.state.down == {}
            && forall name: string, t: Target ::
                 Count(o.events, Release, name, t) == Held(s.down, name)
                 && Count(o.events, Press, name, t) == 0
  {
    var o := Reset(s, true);
    forall name: string, t: Target
      ensures Count(o.events, Release, name, t) == Held(s.down, name)
      ensures Count(o.events, Press, name, t) == 0
    {
      CountAbsent(o.events, Press, name, t);
    }
  }
}

=== FILE: wrapper.dfy ===
/** The wrapper's state and its event handlers: the pad pointer session,
    the tick, the START button, the placement mode with its per-control
    Done flags and editors, and the reset button. Every handler is a pure
    transition from one `State` to the next; those that can dispatch keys
    also return the events they sent. DOM, CSS and toast side effects are
    not part of the state. */
module Wrapper {
  import opened Options
  import opened KeyInjection
  import opened PadJoystick

  datatype State = State(
    down: set<string>,       // held key names
    placing: bool,           // placement mode
    donePad: bool,           // `done.pad`
    doneStart: bool,         // `done.start`
    setEnabled: bool,        // `!placeSet.disabled`
    padEditorOpen: bool,     // `!padEditor.hidden`
    startEditorOpen: bool,   // `!startEditor.hidden`
    startShown: bool,        // START button visible
    startUsed: bool,         // START already pressed this session
    startActive: bool,       // the START binding's `active`
    tracking: bool,          // a pad pointer session is live
    pid: Option<int>,        // its pointer id, `null` as `None`
    tx: real, ty: real,      // target
    x: real, y: real)        // smoothed knob

  datatype Out = Out(state: State, events: seq<KeyEvent>)

  /** A pad pointer event: its id and client coordinates, the pad's
      rectangle at that moment, and `hyp` standing for `Math.hypot` of the
      normalised offset. */
  datatype PadPointer = PadPointer(pointerId: int, clientX: real, clientY: real, rect: PadRect, hyp: NonNegReal)

  /** Whether the pointer is right of / below the pad's centre (positive)
      or left of / above it (negative), per axis. */
  predicate RightOfCentre(e: PadPointer) { e.clientX > e.rect.left + e.rect.width / 2.0 }
  predicate LeftOfCentre(e: PadPointer) { e.clientX < e.rect.left + e.rect.width / 2.0 }
  predicate BelowCentre(e: PadPointer) { e.clientY > e.rect.top + e.rect.height / 2.0 }
  predicate AboveCentre(e: PadPointer) { e.clientY < e.rect.top + e.rect.height / 2.0 }

  /** The event's normalised offset from the pad's centre, per axis. */
  function OffsetX(e: PadPointer): real { Offset(e.clientX, e.rect.left, e.rect.width) }
  function OffsetY(e: PadPointer): real { Offset(e.clientY, e.rect.top, e.rect.height) }

  /** `hyp` is at least each axis's offset, as `Math.hypot` is. */
  predicate HypBoundsOffsets(e: PadPointer)
  {
    e.hyp >= Abs(OffsetX(e)) && e.hyp >= Abs(OffsetY(e))
  }

  /** The arrow names in the tick's order. */
  const ArrowNames: set<string> := {"ArrowLeft", "ArrowRight", "ArrowUp", "ArrowDown"}

  /** The names the reset handler releases, in its order. */
  const ResetOrder: seq<string> := ["ArrowLeft", "ArrowRight", "ArrowUp", "ArrowDown", "Space"]

  /** What every reachable state satisfies. */
  ghost predicate Inv(s: State)
  {
    && s.down <= KeyNames
    && !("ArrowLeft" in s.down && "ArrowRight" in s.down)
    && !("ArrowUp" in s.down && "ArrowDown" in s.down)
    && (s.tracking <==> s.pid.Some?)
    && (s.setEnabled <==> s.donePad && s.doneStart)
    && (s.padEditorOpen || s.startEditorOpen ==> s.placing)
    && InBox(Vec(s.tx, s.ty))
    && InBox(Vec(s.x, s.y))
  }

  /** The state on page load (wrapper.js lines 84-85, 128, 156-158, 179-180):
      nothing held, not placing, no session, everything centred. */
  function Init(): (s: State)
    ensures Inv(s)
    ensures s.down == {} && !s.placing && !s.tracking && !s.startUsed
  {
    State({}, false, false, false, false, false, false, false, false, false, false, None, 0.0, 0.0, 0.0, 0.0)
  }

  // ---------------------------------------------------------------- pad

  /** `centerTarget`: target and knob both snap to the centre (the knob via
      `moveKnob(0, 0, true)`). */
  function CenterTarget(s: State): (r: State)
    ensures r.tx == 0.0 && r.ty == 0.0 && r.x == 0.0 && r.y == 0.0
    ensures r.(tx := s.tx, ty := s.ty, x := s.x, y := s.y) == s
  {
    s.(tx := 0.0, ty := 0.0, x := 0.0, y := 0.0)
  }

  /** Pad `pointerdown`: outside placement it (re)starts the session with
      the new pointer id, even over a live session, and sets the target from
      the event; the target stays in the box and points to the side of the
      pad's centre the pointer is on. During placement nothing changes. */
  function PadPointerDown(s: State, e: PadPointer): (r: State)
    ensures s.placing ==> r == s
    ensures !s.placing ==> r.tracking && r.pid == Some(e.pointerId)
    ensures !s.placing ==> InBox(Vec(r.tx, r.ty))
    ensures !s.placing ==> (r.tx > 0.0 <==> RightOfCentre(e)) && (r.tx < 0.0 <==> LeftOfCentre(e))
    ensures !s.placing ==> (r.ty > 0.0 <==> BelowCentre(e)) && (r.ty < 0.0 <==> AboveCentre(e))
    ensures !s.placing && HypBoundsOffsets(e) ==> Abs(r.tx) <= Abs(OffsetX(e)) && Abs(r.ty) <= Abs(OffsetY(e))
    ensures r.(tracking := s.tracking, pid := s.pid, tx := s.tx, ty := s.ty) == s
  {
    if s.placing then s
    else
      var t := TargetFromEvent(e.clientX, e.clientY, e.rect, e.hyp);
      s.(tracking := true, pid := Some(e.pointerId), tx := t.x, ty := t.y)
  }

  /** Whether a move or end event is ignored by the session. */
  predicate MoveIgnored(s: State, pointerId: int)
  {
    s.placing || !s.tracking || s.pid != Some(pointerId)
  }

  /** Pad `pointermove`: ignored during placement, without a session, or
      from another pointer; otherwise only the target moves, within the box
      and towards the side of the centre the pointer is on. */
  function PadPointerMove(s: State, e: PadPointer): (r: State)
    ensures MoveIgnored(s, e.pointerId) ==> r == s
    ensures !MoveIgnored(s, e.pointerId) ==> InBox(Vec(r.tx, r.ty))
    ensures !MoveIgnored(s, e.pointerId) ==> (r.tx > 0.0 <==> RightOfCentre(e)) && (r.tx < 0.0 <==> LeftOfCentre(e))
    ensures !MoveIgnored(s, e.pointerId) ==> (r.ty > 0.0 <==> BelowCentre(e)) && (r.ty < 0.0 <==> AboveCentre(e))
    ensures !MoveIgnored(s, e.pointerId) && HypBoundsOffsets(e) ==>
              Abs(r.tx) <= Abs(OffsetX(e)) && Abs(r.ty) <= Abs(OffsetY(e))
    ensures r.(tx := s.tx, ty := s.ty) == s
  {
    if MoveIgnored(s, e.pointerId) then s
    else
      var t := TargetFromEvent(e.clientX, e.clientY, e.rect, e.hyp);
      s.(tx := t.x, ty := t.y)
  }

  /** Whether an end event (`pointerup` / `pointercancel`) is ignored: during
      placement, without a session, or from a different pointer. A pointer id
      of 0 is falsy in `e.pointerId && ...`, so it is never "different". */
  predicate EndIgnored(s: State, pointerId: int)
  {
    s.placing || !s.tracking || (s.pid.Some? && pointerId != 0 && s.pid != Some(pointerId))
  }

  /** The pad's `end` handler: a matching end closes the session
      (`tracking = false`, `pid = null`) and centres target and knob. */
  function PadPointerEnd(s: State, pointerId: int): (r: State)
    ensures EndIgnored(s, pointerId) ==> r == s
    ensures !EndIgnored(s, pointerId) ==>
              !r.tracking && r.pid == None && r.tx == 0.0 && r.ty == 0.0 && r.x == 0.0 && r.y == 0.0
    ensures r.(tracking := s.tracking, pid := s.pid, tx := s.tx, ty := s.ty, x := s.x, y := s.y) == s
  {
    if EndIgnored(s, pointerId) then s
    else CenterTarget(s.(tracking := false, pid := None))
  }

  /** Two consecutive `L ? keyDown : keyUp` lines for distinct keys: each
      known key ends up held exactly when its test says so outside
      placement, no other name changes, and every event is an edge of one
      of the two keys. */
  function SyncPair(placing: bool, down: set<string>, n1: string, on1: bool, n2: string, on2: bool, reachable: bool): (r: KeyStep)
    requires n1 != n2
    ensures !placing && n1 in KeyNames ==> (n1 in r.down <==> on1)
    ensures !placing && n2 in KeyNames ==> (n2 in r.down <==> on2)
    ensures r.down - {n1, n2} == down - {n1, n2}
    ensures placing ==> r.down == down && r.events == []
    ensures !reachable ==> r.events == []
    ensures reachable ==> Accounts(r.events, down, r.down)
    ensures forall e | e in r.events :: e.name == n1 || e.name == n2
    ensures EdgeEvents(r.events, down, r.down)
  {
    var k1 := Sync(placing, down, n1, on1, reachable);
    var k2 := Sync(placing, k1.down, n2, on2, reachable);
    AccountsChain(k1.events, k2.events, down, k1.down, k2.down);
    EdgeEventsRebase(k1.events, {n1}, down, k1.down, down, k2.down);
    EdgeEventsRebase(k2.events, {n2}, k1.down, k2.down, down, k2.down);
    EdgeEventsAppend(k1.events, k2.events, down, k2.down);
    KeyStep(k2.down, k1.events + k2.events)
  }

  /** The tick's four `L ? keyDown : keyUp` lines, Left, Right, Up, Down in
      that order: outside placement each arrow ends up held exactly when the
      gate says so, and no other name changes. Events are edges only: each
      names an arrow whose state flipped, as a keydown exactly when it is
      now held, so an unchanged `down` sends nothing. */
  function SyncArrows(placing: bool, down: set<string>, a: Arrows, reachable: bool): (r: KeyStep)
    ensures !placing ==>
              && ("ArrowLeft" in r.down <==> a.left) && ("ArrowRight" in r.down <==> a.right)
              && ("ArrowUp" in r.down <==> a.up) && ("ArrowDown" in r.down <==> a.down)
    ensures r.down - ArrowNames == down - ArrowNames
    ensures placing ==> r.down == down && r.events == []
    ensures !reachable ==> r.events == []
    ensures reachable ==> Accounts(r.events, down, r.down)
    ensures forall e | e in r.events :: e.name in ArrowNames
    ensures EdgeEvents(r.events, down, r.down)
    ensures r.down == down ==> r.events == []
  {
    var h := SyncPair(placing, down, "ArrowLeft", a.left, "ArrowRight", a.right, reachable);
    var v := SyncPair(placing, h.down, "ArrowUp", a.up, "ArrowDown", a.down, reachable);
    AccountsChain(h.events, v.events, down, h.down, v.down);
    DiffCompose(down, h.down, v.down, {"ArrowLeft", "ArrowRight"}, {"ArrowUp", "ArrowDown"});
    assert ArrowNames == {"ArrowLeft", "ArrowRight"} + {"ArrowUp", "ArrowDown"};
    EdgeEventsRebase(h.events, {"ArrowLeft", "ArrowRight"}, down, h.down, down, v.down);
    EdgeEventsRebase(v.events, {"ArrowUp", "ArrowDown"}, h.down, v.down, down, v.down);
    EdgeEventsAppend(h.events, v.events, down, v.down);
    EdgeEventsEmpty(h.events + v.events, down);
    KeyStep(v.down, h.events + v.events)
  }

  /** One `tick`: the knob moves 22% of the way to the target, is
      normalised (`hyp` stands for `Math.hypot` of the new knob) and gated.
      Outside placement each arrow is then held exactly when the knob is
      past its threshold; Space and every other name keep their state.
      During placement the knob still moves but no key changes and nothing
      is sent. Only arrows that flip send events, and the log accounts for
      every change of `down`. */
  function Tick(s: State, hyp: NonNegReal, reachable: bool): (r: Out)
    ensures r.state.x - s.tx == (1.0 - Smoothing) * (s.x - s.tx)
    ensures r.state.y - s.ty == (1.0 - Smoothing) * (s.y - s.ty)
    ensures var k := Knob(Vec(r.state.x, r.state.y), hyp);
            !s.placing ==>
              && ("ArrowLeft" in r.state.down <==> k.x < -Threshold)
              && ("ArrowRight" in r.state.down <==> k.x > Threshold)
              && ("ArrowUp" in r.state.down <==> k.y < -Threshold)
              && ("ArrowDown" in r.state.down <==> k.y > Threshold)
    ensures r.state.down - ArrowNames == s.down - ArrowNames
    ensures s.placing ==> r.state.down == s.down && r.events == []
    ensures !reachable ==> r.events == []
    ensures reachable ==> Accounts(r.events, s.down, r.state.down)
    ensures forall e | e in r.events :: e.name in ArrowNames
    ensures EdgeEvents(r.events, s.down, r.state.down)
    ensures r.state.down == s.down ==> r.events == []
    ensures r.state.(x := s.x, y := s.y, down := s.down) == s
  {
    var p := SmoothVec(Vec(s.x, s.y), Vec(s.tx, s.ty));
    var k := SyncArrows(s.placing, s.down, Gate(Knob(p, hyp)), reachable);
    Out(s.(x := p.x, y := p.y, down := k.down), k.events)
  }

  // --------------------------------------------------------------- START

  /** START `pointerdown` (the `bindPress` down handler): the binding
      becomes active and Space is pressed, which placement blocks. */
  function StartPointerDown(s: State, reachable: bool): (r: Out)
    ensures r.state.startActive
    ensures !s.placing ==> "Space" in r.state.down
    ensures r.state.down - {"Space"} == s.down - {"Space"}
    ensures s.placing ==> r.state.down == s.down && r.events == []
    ensures !reachable ==> r.events == []
    ensures r.events != [] <==> reachable && !s.placing && "Space" !in s.down
    ensures forall e | e in r.events :: e.name == "Space" && e.kind == Press
    ensures reachable ==> Accounts(r.events, s.down, r.state.down)
    ensures r.state.(down := s.down, startActive := s.startActive) == s
  {
    var k := KeyDown(s.placing, s.down, "Space", reachable);
    Out(s.(startActive := true, down := k.down), k.events)
  }

  /** START release (window `pointerup` / `pointercancel`, or `pointerout`
      while active): ignored unless the binding is active; otherwise Space is
      released and, outside placement, the first release marks START used
      and hides it. `startUsed` never goes back to false here. */
  function StartPointerRelease(s: State, reachable: bool): (r: Out)
    ensures !s.startActive ==> r == Out(s, [])
    ensures s.startActive ==> !r.state.startActive
    ensures s.startUsed ==> r.state.startShown == s.startShown
    ensures !reachable ==> r.events == []
    ensures r.events != [] <==> reachable && s.startActive && !s.placing && "Space" in s.down
    ensures forall e | e in r.events :: e.name == "Space" && e.kind == Release
    ensures s.startActive && !s.placing ==> "Space" !in r.state.down && r.state.startUsed
    ensures s.startActive && !s.placing && !s.startUsed ==> !r.state.startShown
    ensures s.placing ==> r.state.startUsed == s.startUsed && r.state.startShown == s.startShown
    ensures s.startUsed ==> r.state.startUsed
    ensures r.state.startShown ==> s.startShown
    ensures r.state.down - {"Space"} == s.down - {"Space"}
    ensures s.placing ==> r.state.down == s.down && r.events == []
    ensures reachable ==> Accounts(r.events, s.down, r.state.down)
    ensures r.state.(startActive := s.startActive, down := s.down,
                     startUsed := s.startUsed, startShown := s.startShown) == s
  {
    if !s.startActive then Out(s, [])
    else
      var k := KeyUp(s.placing, s.down, "Space", reachable);
      var t := s.(startActive := false, down := k.down);
      if !t.placing && !t.startUsed then Out(t.(startUsed := true, startShown := false), k.events)
      else Out(t, k.events)
  }

  // ----------------------------------------------------------- placement

  /** `updateSetButton`: SET is enabled exactly when both Done flags are set. */
  function UpdateSetButton(s: State): (r: State)
    ensures r.setEnabled <==> s.donePad && s.doneStart
    ensures r.(setEnabled := s.setEnabled) == s
  {
    s.(setEnabled := s.donePad && s.doneStart)
  }

  /** `startPlacement` (gear button, and the fullscreen gate's entry):
      placement begins with both Done flags cleared, SET disabled, both
      editors closed and START hidden. Held keys are not released and the
      pad session is not touched. */
  function StartPlacement(s: State): (r: State)
    ensures r.placing && !r.donePad && !r.doneStart && !r.setEnabled
    ensures !r.padEditorOpen && !r.startEditorOpen && !r.startShown
    ensures r.down == s.down && r.tracking == s.tracking && r.pid == s.pid
    ensures r.startUsed == s.startUsed && r.startActive == s.startActive
    ensures Vec(r.tx, r.ty) == Vec(s.tx, s.ty) && Vec(r.x, r.y) == Vec(s.x, s.y)
  {
    var t := s.(placing := true, startShown := false, donePad := false, doneStart := false);
    UpdateSetButton(t).(padEditorOpen := false, startEditorOpen := false)
  }

  /** `endPlacement`: placement ends with both editors closed and START
      shown; the Done flags, held keys and session are left as they are. */
  function EndPlacement(s: State): (r: State)
    ensures !r.placing && !r.padEditorOpen && !r.startEditorOpen && r.startShown
    ensures r.(placing := s.placing, padEditorOpen := s.padEditorOpen,
               startEditorOpen := s.startEditorOpen, startShown := s.startShown) == s
  {
    s.(placing := false, padEditorOpen := false, startEditorOpen := false, startShown := true)
  }

  /** A `click` on the pad opens its editor, during placement only. */
  function PadClick(s: State): (r: State)
    ensures r.padEditorOpen <==> s.padEditorOpen || s.placing
    ensures r.(padEditorOpen := s.padEditorOpen) == s
  {
    if !s.placing then s else s.(padEditorOpen := true)
  }

  /** A `click` on START opens its editor, during placement only. */
  function StartClick(s: State): (r: State)
    ensures r.startEditorOpen <==> s.startEditorOpen || s.placing
    ensures r.(startEditorOpen := s.startEditorOpen) == s
  {
    if !s.placing then s else s.(startEditorOpen := true)
  }

  /** The pad editor's Done button: closes it and marks the pad done. */
  function PadDone(s: State): (r: State)
    ensures r.donePad && !r.padEditorOpen && r.doneStart == s.doneStart
    ensures r.setEnabled <==> s.doneStart
    ensures r.(donePad := s.donePad, padEditorOpen := s.padEditorOpen, setEnabled := s.setEnabled) == s
  {
    UpdateSetButton(s.(padEditorOpen := false, donePad := true))
  }

  /** The START editor's Done button: closes it and marks START done. */
  function StartDone(s: State): (r: State)
    ensures r.doneStart && !r.startEditorOpen && r.donePad == s.donePad
    ensures r.setEnabled <==> s.donePad
    ensures r.(doneStart := s.doneStart, startEditorOpen := s.startEditorOpen, setEnabled := s.setEnabled) == s
  {
    UpdateSetButton(s.(startEditorOpen := false, doneStart := true))
  }

  /** The Defaults button: both controls count as done and SET is enabled
      (the layout reset it also performs is CSS only). */
  function PlaceDefaults(s: State): (r: State)
    ensures r.donePad && r.doneStart && r.setEnabled
    ensures r.(donePad := s.donePad, doneStart := s.doneStart, setEnabled := s.setEnabled) == s
  {
    UpdateSetButton(s.(donePad := true, doneStart := true))
  }

  /** The SET button: nothing outside placement. During placement an open
      editor of a control not yet done is accepted as done; placement then
      ends exactly when both controls are done, and otherwise stays on. */
  function PlaceSet(s: State): (r: State)
    ensures !s.placing ==> r == s
    ensures s.placing ==> r.donePad == (s.donePad || s.padEditorOpen)
    ensures s.placing ==> r.doneStart == (s.doneStart || s.startEditorOpen)
    ensures s.placing ==> (r.placing <==> !(r.donePad && r.doneStart))
    ensures r.placing ==> r.setEnabled == (r.donePad && r.doneStart)
    ensures s.placing && !r.placing ==> r.startShown && !r.padEditorOpen && !r.startEditorOpen
    ensures r.placing ==> r.startShown == s.startShown
    ensures r.placing ==> (r.padEditorOpen <==> s.padEditorOpen && s.donePad)
    ensures r.placing ==> (r.startEditorOpen <==> s.startEditorOpen && s.doneStart)
    ensures r.(placing := s.placing, donePad := s.donePad, doneStart := s.doneStart,
               setEnabled := s.setEnabled, padEditorOpen := s.padEditorOpen,
               startEditorOpen := s.startEditorOpen, startShown := s.startShown) == s
  {
    if !s.placing then s
    else if !s.donePad || !s.doneStart then
      var a := if !s.donePad && s.padEditorOpen then s.(padEditorOpen := false, donePad := true) else s;
      var b := if !a.doneStart && a.startEditorOpen then a.(startEditorOpen := false, doneStart := true) else a;
      var c := UpdateSetButton(b);
      if !c.setEnabled then c else EndPlacement(c)
    else EndPlacement(s)
  }

  /** Placement drag (`beginDrag`): the control whose position is dragged. */
  datatype Control = PadControl | StartControl

  /** The drag limits: the pad moves within 20vw / 12vh of its home, START
      within 30vw / 15vh. */
  function DragLimit(c: Control): (limit: Vec)
  {
    match c
    case PadControl => Vec(20.0, 12.0)
    case StartControl => Vec(30.0, 15.0)
  }

  /** A drag move. `s` is the state at the drag's `pointerdown`: the drag
      exists only if placement was on then (the guard is not re-checked on
      later moves). The new offset is the start offset plus the pointer's
      travel, clamped into the control's limits; a travel that stays
      inside the limits is followed exactly. */
  function DragTo(s: State, c: Control, base: Vec, travel: Vec): (r: Option<Vec>)
    ensures r.Some? <==> s.placing
    ensures r.Some? ==> -DragLimit(c).x <= r.value.x <= DragLimit(c).x
    ensures r.Some? ==> -DragLimit(c).y <= r.value.y <= DragLimit(c).y
    ensures r.Some? && -DragLimit(c).x <= base.x + travel.x <= DragLimit(c).x ==> r.value.x == base.x + travel.x
    ensures r.Some? && -DragLimit(c).y <= base.y + travel.y <= DragLimit(c).y ==> r.value.y == base.y + travel.y
    ensures r.Some? && base.x + travel.x > DragLimit(c).x ==> r.value.x == DragLimit(c).x
    ensures r.Some? && base.x + travel.x < -DragLimit(c).x ==> r.value.x == -DragLimit(c).x
    ensures r.Some? && base.y + travel.y > DragLimit(c).y ==> r.value.y == DragLimit(c).y
    ensures r.Some? && base.y + travel.y < -DragLimit(c).y ==> r.value.y == -DragLimit(c).y
  {
    if !s.placing then None
    else
      var limit := DragLimit(c);
      Some(Vec(Clamp(base.x + travel.x, -limit.x, limit.x), Clamp(base.y + travel.y, -limit.y, limit.y)))
  }

  // --------------------------------------------------------------- reset

  /** The RESET button: START is shown again and may be used again; each of
      Left, Right, Up, Down, Space gets a `keyUp` (so outside placement
      nothing stays held, with one keyup pair per key that was held, and
      during placement nothing is released); target and knob are centred.
      The pad session and the placement state are not touched. */
  function Reset(s: State, reachable: bool): (r: Out)
    ensures r.state.startShown && !r.state.startUsed
    ensures !s.placing ==> r.state.down == s.down - KeyNames
    ensures s.placing ==> r.state.down == s.down && r.events == []
    ensures forall e | e in r.events :: e.kind == Release
    ensures reachable ==> Accounts(r.events, s.down, r.state.down)
    ensures !reachable ==> r.events == []
    ensures r.state.tx == 0.0 && r.state.ty == 0.0 && r.state.x == 0.0 && r.state.y == 0.0
    ensures r.state.(startShown := s.startShown, startUsed := s.startUsed, down := s.down,
                     tx := s.tx, ty := s.ty, x := s.x, y := s.y) == s
  {
    var t := s.(startShown := true, startUsed := false);
    var k := KeyUpEach(t.placing, t.down, ResetOrder, reachable);
    assert Elems(ResetOrder) == KeyNames;
    Out(CenterTarget(t.(down := k.down)), k.events)
  }
}
